=== FILE: README.md ===
# BAC0 trend-log decoding, modelled in Dafny

BAC0's `TrendLog` wraps a BACnet Trend Log object on a remote controller. Its one
piece of logic is `create_dataframe`. That method walks the records of the log buffer
and builds a table indexed by timestamp. The table has a `logdatum`, a `status`, a
`choice` and a `value` column, and `history` is set to a copy of the `value` column.
Each timestamp is rebuilt from the record's BACnet Date and Time: the year is an
offset from 1900 (ASHRAE 135, section 20.2.12), the day of the week is dropped, and
the hundredths of a second (section 20.2.13) become microseconds.
The `choice` and `value` of a record are the first key and the first payload of its
datum. The model also covers the defaults of the `TrendLogProperties` container,
and the two methods that wrap the network reads: `__init__` and `read_log_buffer`.
What the device answered is passed to each of them as a parameter.

Files:
- `wrappers.dfy`: `Option` (Python's `None`) and `Result` (an operation that raises).
- `log_records.dfy`: BACnet Date, Time, StatusFlags, the `logDatum` tags and payloads, and LogRecord.
- `trend_decode.dfy`: the decoder, `TrendDecode.Decode`, with its per-record reference definition and lemmas.
- `trend_logs.dfy`: the property container and the trend-log state updates.

The table is modelled as parallel sequences. A datum is modelled as an ordered
sequence of (tag, payload) pairs, so that "first key" has a meaning. Decoding fails
with `EmptyDatum(p)` when it meets an empty datum. `p` is the first such position.
This is the `IndexError` that `[0]` raises at line 108, before anything is assigned.
A failed decode therefore leaves `_df` and `history` as they were.

Where a stricter behaviour could be expected of a decoder, the model follows what the code does:
- A datum with several entries is not rejected. Its first entry is used (`TrendDecode.DecodeTakesFirstEntry`).
- An empty datum is not reported as a malformed record. It is the index error above, and `read_log_buffer` turns it into its generic error.
- The records are not sorted, and repeated timestamps are kept.
- The hundredths field is read as hundredths of a second. The source reads it differently, which is recorded under "## Findings".
- "Unspecified" markers are not singled out. The day of the week, including its 255 marker, is dropped. A raw year of 255 becomes the calendar year 2155. A hundredths field of 255 becomes 2.55 s, where the source reads 0.255 s (`TrendDecode.UnspecifiedHundredths`).

## Model

| member | source | states |
|---|---|---|
| `TrendLogs.FreshProperties` | BAC0/core/devices/Trends.py:44-60 | a fresh container has no device, identifier, name, property reference, read status flags or frame; its buffer size and both record counts are 0; all four status-flag entries are false; and its description is None because the second assignment overwrites the empty string |
| `TrendLogs.Open` | BAC0/core/devices/Trends.py:66-83 | creation succeeds exactly when there is a device and the metadata read succeeds; then the seven read values land in their fields in request order, device and identifier are kept, and no history exists yet; every failure becomes the single "reading informations" error |
| `TrendLogs.OpenStartsFresh` | BAC0/core/devices/Trends.py:66-70 | creation starts from a fresh container: the fields that neither the arguments nor the read set (the flag dictionary and the frame) agree with `FreshProperties`, so there is no frame before the first decode |
| `TrendDecode.DigitsValue` | BAC0/core/devices/Trends.py:102 | reading back the decimal digits that the string formatting writes for a number gives the number |
| `TrendDecode.FractionAsWritten` | BAC0/core/devices/Trends.py:101-102 | the microseconds the source makes of hundredths h, namely its unpadded decimal digits right-padded to six: a one-digit field is read as tenths, a two-digit one as hundredths and a three-digit one as thousandths of a second, always under one second |
| `TrendDecode.FractionAsWrittenMergesTenths` | BAC0/core/devices/Trends.py:101-102 | as written, 5 and 50 hundredths both become half a second, and 1, 10 and 100 hundredths all become a tenth |
| `TrendDecode.FractionAsWrittenCorrectOnlyForTwoDigits` | BAC0/core/devices/Trends.py:101-102 | the as-written fraction equals the intended one if and only if the hundredths are 0 or have two digits |
| `TrendDecode.AsWrittenMergesDistinctTimes` | BAC0/core/devices/Trends.py:99-102 | the source gives 14:30:05.05 and 14:30:05.50 of the same date the same timestamp, which the corrected decode keeps apart |
| `TrendDecode.FractionIntended` | BAC0/core/devices/Trends.py:101 | a hundredths field becomes a whole number of hundredths of a second, from which the field is recovered, and stays under one second for values below 100 |
| `TrendDecode.ToTimestamp` | BAC0/core/devices/Trends.py:99-102 | the rebuilt calendar year always lies in 1900..2155, the range a one-octet offset from 1900 can reach, and the sub-second part is a whole number of hundredths |
| `TrendDecode.ToTimestampAsWritten` | BAC0/core/devices/Trends.py:99-102 | the timestamp `create_dataframe` builds: every calendar field as in the corrected decode (year = raw + 1900, month, day, hour, minute and second carried through); the sub-second part is h * 100000, h * 10000 or h * 1000 microseconds as h has one, two or three digits, always under one second; equal to the corrected timestamp if and only if h is 0 or has two digits |
| `TrendDecode.AsWrittenForgetsDayOfWeekAndPadding` | BAC0/core/devices/Trends.py:99-102 | two stamps get the same as-written timestamp if and only if they agree except for the day of the week and their hundredths read alike once right-padded |
| `TrendDecode.UnspecifiedHundredths` | BAC0/core/devices/Trends.py:101-102 | for the 255 "unspecified" hundredths the corrected reading gives 2550000 microseconds, while the source gives 255000 |
| `TrendDecode.FromTimestamp` | BAC0/core/devices/Trends.py:99-102 | a calendar timestamp can be re-encoded as BACnet date and time fields exactly when the year is 1900..2155, the sub-second part is a whole number of hundredths below 256, and every other field fits an octet; the supplied day of the week is the one stored |
| `TrendDecode.TimestampRoundTrip` | BAC0/core/devices/Trends.py:99-102 | re-encoding a decoded stamp with its dropped day of the week gives the original stamp back, so the corrected decode loses nothing else |
| `TrendDecode.TimestampRoundTripBack` | BAC0/core/devices/Trends.py:99-102 | every encodable timestamp decodes from its own encoding |
| `TrendDecode.ToTimestampForgetsOnlyDayOfWeek` | BAC0/core/devices/Trends.py:99-102 | under the corrected fraction reading, two stamps decode to the same timestamp if and only if they differ at most in the day of the week |
| `TrendDecode.YearNinetyNine` | BAC0/core/devices/Trends.py:100 | raw year 99 is calendar year 1999 |
| `TrendDecode.Collect` | BAC0/core/devices/Trends.py:95-104 | the loop appends exactly one timestamp, datum and status per record: all three columns have the buffer's length, and entry i comes from record i, with its status copied unchanged |
| `TrendDecode.Project` | BAC0/core/devices/Trends.py:108-109 | projection succeeds if and only if every datum has an entry; then choice[i] is the first key and value[i] the payload of that same first entry of datum i; otherwise it fails at the first empty datum |
| `TrendDecode.Decode` | BAC0/core/devices/Trends.py:94-109 | decoding succeeds if and only if every record has a datum entry; on success every column has one entry per record, in buffer order, and row i is built from record i alone; on failure the reported position is the first record with an empty datum |
| `TrendDecode.DecodeEmpty` | BAC0/core/devices/Trends.py:95-106 | an empty buffer gives an empty table, not an error |
| `TrendDecode.DecodeIsRowwise` | BAC0/core/devices/Trends.py:98-109 | the table is the single-record decode applied row by row, and it fails exactly when some single record fails |
| `TrendDecode.DescribesUnique` | BAC0/core/devices/Trends.py:94-109 | the buffer determines the table completely: two tables that both describe the same buffer are equal |
| `TrendDecode.DecodeAppendSucceeds` | BAC0/core/devices/Trends.py:98-109 | a concatenated buffer decodes exactly when both of its parts decode |
| `TrendDecode.DecodeAppend` | BAC0/core/devices/Trends.py:98-107 | the table of a + b is the table of a followed by the table of b, so nothing is reordered, merged or de-duplicated |
| `TrendDecode.DecodeAppendFailsLeft` | BAC0/core/devices/Trends.py:108-109 | an empty datum in a is reported at the same position when b follows |
| `TrendDecode.DecodeAppendFailsRight` | BAC0/core/devices/Trends.py:108-109 | an empty datum in b after a clean a is reported at its position shifted by the length of a |
| `TrendDecode.DecodeOneReading` | BAC0/core/devices/Trends.py:98-109 | a real 21.5 stamped raw (124, 3, 15) 14:30:05.50 decodes to one row at 2024-03-15 14:30:05 and 500000 microseconds, with choice realValue and value 21.5 |
| `TrendDecode.DecodeTakesFirstEntry` | BAC0/core/devices/Trends.py:108-109 | a datum with several entries is accepted, and its first entry gives both the choice and the value |
| `TrendDecode.DecodeRejectsEmptyDatum` | BAC0/core/devices/Trends.py:108 | an empty datum in the middle of the buffer fails the decode at that position |
| `TrendDecode.History` | BAC0/core/devices/Trends.py:112 | the history has the frame's length, and entry i has the frame's timestamp i and row i's value |
| `TrendLogs.CreateDataframe` | BAC0/core/devices/Trends.py:94-112 | the decode fails exactly when some datum is empty, and then the trend log is left unchanged; on success the stored frame describes the buffer, every other property is kept, and history is the frame's value column under its index |
| `TrendLogs.CreateDataframeReplaces` | BAC0/core/devices/Trends.py:111-112 | frame and history are replaced wholesale: the result does not depend on any earlier frame or history |
| `TrendLogs.CreateDataframeIdempotent` | BAC0/core/devices/Trends.py:94-112 | decoding the same buffer a second time changes nothing further |
| `TrendLogs.HistoryFollowsBuffer` | BAC0/core/devices/Trends.py:98-112 | history has one entry per record, in buffer order: the first datum payload of record i, at record i's timestamp |
| `TrendLogs.ReadLogBuffer` | BAC0/core/devices/Trends.py:85-92 | reading succeeds exactly when there is a device, the range read succeeds and every datum has an entry; then it equals decoding the fetched buffer; every failure becomes the single "reading TrendLog" error and leaves the trend log unchanged |

## Left out

- The ReadPropertyMultiple and ReadRange requests: building the request strings and the network round trips. Each operation receives the answer, or the failure, as a parameter.
- A metadata answer with the wrong number of values. This is the unpacking error at lines 72-78. It is folded into the read's failure, which is rewrapped like every other failure.
- The timestamp string parse with `pd.to_datetime`. The model keeps the timestamp as integer fields. In the source, a field the format rejects raises at line 102. Examples are a month of 0 or 13, a day of 0, a date the calendar lacks such as February 30, or the 255 "unspecified" marker in the month, day, hour, minute or second. In `read_log_buffer` that error is rewrapped like the others. The model does not reproduce this rejection.
- TrendDecode.ToTimestamp: it uses the corrected reading h * 10000 microseconds for every hundredths octet h, not the source's. For h in 1..9 the source gives h * 100000 microseconds. For h in 100..255 the source gives h * 1000 microseconds, which is under a second, while the model gives a sub-second part of one second or more (2.55 s for the 255 marker). BACnet hundredths above 99 are not valid, so no intended reading exists for them. Only for 0 and 10..99 do the two agree.
- TrendDecode.Decode: its index column uses `TrendDecode.ToTimestamp`, so it differs from the source in the same way for hundredths 1..9 and 100..255. `TrendDecode.ToTimestampAsWritten` gives the source's value.
- TrendLogs.CreateDataframe: the frame's index and the history's index inherit the same fraction difference from `TrendDecode.Decode`.
- TrendLogs.HistoryFollowsBuffer: history timestamps inherit the same fraction difference.
- TrendLogs.ReadLogBuffer: the stored index inherits the same fraction difference.
- TrendDecode.Decode: its "succeeds if and only if every datum has an entry" leaves out the parse rejection above. A record with a month of 13, a day of 0 or the date February 30 decodes in the model but raises at line 102 in the source.
- TrendLogs.CreateDataframe: its success condition leaves out the same parse rejection at line 102, so a record with an out-of-range field or an impossible date such as February 30 is decoded here instead of leaving the trend log unchanged.
- TrendLogs.ReadLogBuffer: its success condition leaves out the same parse rejection at line 102, including impossible dates such as February 30, which the source turns into its generic "reading TrendLog" error.
- pandas itself and the optional-import flag: `DataFrame`, `set_index`, `apply` and `copy`. The table is modelled as parallel sequences, and `set_index` only relabels rows.
- bacpypes' `TrendLogObject` and `dict_contents()`. A datum arrives here already converted to its ordered (tag, payload) entries.
- The unused Poll, Match and notes imports.

## Findings

| source | as written | input that shows it | evidently intended | confidence | as-written member | corrected member |
|---|---|---|---|---|---|---|
| BAC0/core/devices/Trends.py:101-102 | the hundredths field is written without zero padding, and `%f` pads the digits after the point on the right, so hundredths h is read as the decimal 0.h of a second | hundredths 5 (a device time of 14:30:05.05) becomes 14:30:05.5, the same timestamp as hundredths 50; 1, 10 and 100 also collide | h hundredths is h/100 of a second, h * 10000 microseconds | not executed; high, the `%f` right-padding is the documented behaviour of the standard parse | `TrendDecode.ToTimestampAsWritten` | `TrendDecode.FractionIntended` |

`TrendDecode.FractionAsWrittenMergesTenths` exhibits the collisions.
The rest of the model, `TrendDecode.ToTimestamp` and therefore `TrendDecode.Decode`, uses the corrected reading.
`TrendDecode.AsWrittenMergesDistinctTimes` shows that two distinct device times merge under the as-written reading.
`TrendDecode.FractionAsWrittenCorrectOnlyForTwoDigits` shows that the two readings agree only for 0 and for two-digit values.

=== FILE: log_records.dfy ===
/**
 The raw log records a BACnet Trend Log object hands back from a ReadRange of its
 Log_Buffer property: a split date and time stamp, a one-entry tagged datum and the
 record's status flags.
 */
module LogRecords {
  import opened Wrappers

  /** An unsigned octet: the width of every field of a BACnet Date and Time. */
  type Octet = x: int | 0 <= x < 256

  /**
   A BACnet Date (ASHRAE 135, section 20.2.12): the year is stored as an offset
   from 1900, and the fourth field is the day of the week (1 is Monday).
   */
  datatype Date = Date(year: Octet, month: Octet, day: Octet, dayOfWeek: Octet)

  /** A BACnet Time (ASHRAE 135, section 20.2.13): the last field is hundredths of a second. */
  datatype Time = Time(hour: Octet, minute: Octet, second: Octet, hundredths: Octet)

  /** A BACnetDateTime: the `timestamp` of a log record. */
  datatype DateTime = DateTime(date: Date, time: Time)

  /** The four booleans of a BACnet StatusFlags bit string. */
  datatype StatusFlags = StatusFlags(inAlarm: bool, fault: bool, overridden: bool, outOfService: bool)

  /** No flag raised: the value every status-flag dictionary starts with. */
  const AllClear := StatusFlags(false, false, false, false)

  /** The names of the alternatives of the BACnetLogRecord `logDatum` choice. */
  datatype Tag =
    | LogStatus
    | BooleanValue
    | RealValue
    | EnumValue
    | UnsignedValue
    | SignedValue
    | BitStringValue
    | NullValue
    | FailureValue
    | TimeChange
    | AnyValue

  /** The payload carried under a tag; the decoder treats it as opaque. */
  datatype Payload =
    | StatusBits(bits: seq<bool>)
    | Boolean(b: bool)
    | Real(r: real)
    | Enumerated(e: nat)
    | Unsigned(u: nat)
    | Signed(s: int)
    | BitString(bits: seq<bool>)
    | Null
    | Error(errorClass: nat, errorCode: nat)
    | TimeDelta(seconds: real)
    | Any

  /**
   The contents of a `logDatum` as a mapping from tag to payload, kept in the
   mapping's iteration order so that its first entry is defined. A well-formed
   choice has exactly one entry; nothing here enforces that.
   */
  type Datum = seq<(Tag, Payload)>

  /** One BACnetLogRecord. Its status flags are optional on the wire. */
  datatype LogRecord = LogRecord(timestamp: DateTime, logDatum: Datum, statusFlags: Option<StatusFlags>)
}

=== FILE: trend_decode.dfy ===
/**
 The log-buffer decoder of a BAC0 TrendLog (`create_dataframe`): one pass over the
 records collects a timestamp, the datum and the status flags of each, then the
 datum column is projected onto its first tag (`choice`) and first payload (`value`).
 The table is modelled as parallel sequences.
 */
module TrendDecode {
  import opened Wrappers
  import opened LogRecords

  /**
   The calendar timestamp built for one record: the BACnet year offset resolved to
   a calendar year, the day of the week dropped, the hundredths of a second turned
   into microseconds, every other field carried through.
   */
  datatype Timestamp = Timestamp(year: int, month: int, day: int, hour: int, minute: int, second: int, microsecond: int)

  /** Raised when a record's datum has no entry to take the first key of. */
  datatype DecodeError = EmptyDatum(position: nat)

  /** The columns filled by the loop over the buffer. */
  datatype Columns = Columns(index: seq<Timestamp>, logdatum: seq<Datum>, status: seq<Option<StatusFlags>>)

  /** The decoded table: the `index_ts` index and the `logdatum`, `status`, `choice` and `value` columns. */
  datatype Frame = Frame(
    index: seq<Timestamp>,
    logdatum: seq<Datum>,
    status: seq<Option<StatusFlags>>,
    choice: seq<Tag>,
    value: seq<Payload>)

  /** One decoded row of a frame. */
  datatype Row = Row(timestamp: Timestamp, logdatum: Datum, status: Option<StatusFlags>, choice: Tag, value: Payload)

  /** The `value` column together with the frame's index, as kept in `history`. */
  datatype Series = Series(index: seq<Timestamp>, values: seq<Payload>)

  /** Every column of the frame has one entry per row. */
  predicate Aligned(f: Frame) {
    && |f.logdatum| == |f.index|
    && |f.status| == |f.index|
    && |f.choice| == |f.index|
    && |f.value| == |f.index|
  }

  function RowAt(f: Frame, i: nat): Row
    requires Aligned(f) && i < |f.index|
  {
    Row(f.index[i], f.logdatum[i], f.status[i], f.choice[i], f.value[i])
  }

  /** The frame's rows laid end to end. */
  function Concat(f: Frame, g: Frame): Frame {
    Frame(f.index + g.index, f.logdatum + g.logdatum, f.status + g.status, f.choice + g.choice, f.value + g.value)
  }

  const EmptyFrame := Frame([], [], [], [], [])

  /** The decimal digits of n, most significant first, as `'{}'.format(n)` writes them. */
  function Digits(n: nat): seq<nat>
    decreases n
  {
    if n < 10 then [n] else Digits(n / 10) + [n % 10]
  }

  /** The number a digit string denotes, most significant digit first. */
  function Value(ds: seq<nat>): nat {
    if |ds| == 0 then 0 else Value(ds[..|ds| - 1]) * 10 + ds[|ds| - 1]
  }

  function Pow10(k: nat): nat {
    if k == 0 then 1 else 10 * Pow10(k - 1)
  }

  /** `k` zero digits. */
  function Zeros(k: nat): seq<nat> {
    seq(k, _ => 0)
  }

  /** Reading back what `'{}'.format(n)` writes gives n. */
  lemma {:induction false} DigitsValue(n: nat)
    ensures Value(Digits(n)) == n
    decreases n
  {
    if n >= 10 {
      DigitsValue(n / 10);
      var ds := Digits(n / 10) + [n % 10];
      assert ds[..|ds| - 1] == Digits(n / 10);
    }
  }

  /** Up to 255 the decimal form has one, two or three digits. */
  lemma DigitsLength(n: nat)
    requires n < 1000
    ensures |Digits(n)| == if n < 10 then 1 else if n < 100 then 2 else 3
  {
  }

  /** Appending k zero digits multiplies the value by 10^k. */
  lemma {:induction false} PaddedValue(ds: seq<nat>, k: nat)
    ensures Value(ds + Zeros(k)) == Value(ds) * Pow10(k)
  {
    if k > 0 {
      PaddedValue(ds, k - 1);
      var longer := ds + Zeros(k);
      assert longer[..|longer| - 1] == ds + Zeros(k - 1);
      assert longer[|longer| - 1] == 0;
      calc {
        Value(longer);
        Value(ds + Zeros(k - 1)) * 10;
        Value(ds) * Pow10(k - 1) * 10;
        Value(ds) * Pow10(k);
      }
    } else {
      assert ds + Zeros(k) == ds;
    }
  }

  /**
   The microseconds `create_dataframe` makes of a hundredths field: the number is written
   without zero padding, and the `%f` directive pads what follows the point with
   zeros on the right to six digits. So h is read as the decimal fraction 0.h:
   one digit as tenths, two as hundredths, three as thousandths of a second.
   */
  function FractionAsWritten(hundredths: Octet): (us: nat)
    ensures hundredths < 10 ==> us == hundredths * 100000
    ensures 10 <= hundredths < 100 ==> us == hundredths * 10000
    ensures 100 <= hundredths ==> us == hundredths * 1000
    ensures us < 1000000
  {
    var ds := Digits(hundredths);
    DigitsLength(hundredths);
    DigitsValue(hundredths);
    PaddedValue(ds, 6 - |ds|);
    assert Pow10(3) == 1000 && Pow10(4) == 10000 && Pow10(5) == 100000;
    Value(ds + Zeros(6 - |ds|))
  }

  /**
   The as-written reading merges distinct device times: 5 hundredths and 50
   hundredths both become half a second, and 1, 10 and 100 hundredths all
   become a tenth of a second.
   */
  lemma FractionAsWrittenMergesTenths()
    ensures FractionAsWritten(5) == FractionAsWritten(50) == 500000
    ensures FractionAsWritten(1) == FractionAsWritten(10) == FractionAsWritten(100) == 100000
  {
  }

  /** The as-written reading gives the intended microseconds only for 0 and for two-digit hundredths. */
  lemma FractionAsWrittenCorrectOnlyForTwoDigits(h: Octet)
    ensures FractionAsWritten(h) == FractionIntended(h) <==> h == 0 || 10 <= h < 100
  {
  }

  /** The microseconds a hundredths-of-a-second field denotes. */
  function FractionIntended(hundredths: Octet): (us: nat)
    ensures us % 10000 == 0 && us / 10000 == hundredths
    ensures hundredths < 100 ==> us < 1000000
  {
    hundredths * 10000
  }

  /** Resolves the year offset, drops the day of the week and reads the hundredths as hundredths. */
  function ToTimestamp(stamp: DateTime): (t: Timestamp)
    ensures 1900 <= t.year < 2156
    ensures t.microsecond % 10000 == 0
  {
    Timestamp(
      stamp.date.year + 1900, stamp.date.month, stamp.date.day,
      stamp.time.hour, stamp.time.minute, stamp.time.second, FractionIntended(stamp.time.hundredths))
  }

  /**
   The timestamp `create_dataframe` builds, with the fraction read as written:
   every calendar field as in the corrected decode, a sub-second part that reads
   one digit as tenths, two as hundredths and three as thousandths, always under
   one second, and equal to the corrected timestamp exactly when the hundredths
   are 0 or have two digits.
   */
  function ToTimestampAsWritten(stamp: DateTime): (t: Timestamp)
    ensures 1900 <= t.year < 2156
    ensures t.(microsecond := 0) == ToTimestamp(stamp).(microsecond := 0)
    ensures
      var h := stamp.time.hundredths;
      t.microsecond == if h < 10 then h * 100000 else if h < 100 then h * 10000 else h * 1000
    ensures 0 <= t.microsecond < 1000000
    ensures t == ToTimestamp(stamp) <==> stamp.time.hundredths == 0 || 10 <= stamp.time.hundredths < 100
  {
    FractionAsWrittenCorrectOnlyForTwoDigits(stamp.time.hundredths);
    ToTimestamp(stamp).(microsecond := FractionAsWritten(stamp.time.hundredths))
  }

  /**
   Two stamps get the same timestamp from `create_dataframe` exactly when they
   agree except for the day of the week and their hundredths read alike as written.
   */
  lemma AsWrittenForgetsDayOfWeekAndPadding(a: DateTime, b: DateTime)
    ensures ToTimestampAsWritten(a) == ToTimestampAsWritten(b) <==>
      && a.date.(dayOfWeek := 0) == b.date.(dayOfWeek := 0)
      && a.time.(hundredths := 0) == b.time.(hundredths := 0)
      && FractionAsWritten(a.time.hundredths) == FractionAsWritten(b.time.hundredths)
  {
  }

  /** Two device times 45 hundredths apart get the same timestamp from `create_dataframe`. */
  lemma AsWrittenMergesDistinctTimes(date: Date)
    ensures
      var early, late := DateTime(date, Time(14, 30, 5, 5)), DateTime(date, Time(14, 30, 5, 50));
      && early != late
      && ToTimestampAsWritten(early) == ToTimestampAsWritten(late)
      && ToTimestamp(early) != ToTimestamp(late)
  {
  }

  /**
   Hundredths outside 0..99, such as the 255 "unspecified" marker, are not hundredths
   of a valid time: the corrected reading gives 2.55 s, while `create_dataframe` reads 0.255 s.
   */
  lemma UnspecifiedHundredths(date: Date)
    ensures
      var stamp := DateTime(date, Time(14, 30, 5, 255));
      && ToTimestamp(stamp).microsecond == 2550000
      && ToTimestampAsWritten(stamp).microsecond == 255000
  {
  }

  /** A timestamp's fields fit the octets of a BACnet date and time. */
  predicate FitsOctets(t: Timestamp) {
    && 0 <= t.year - 1900 < 256
    && 0 <= t.month < 256 && 0 <= t.day < 256
    && 0 <= t.hour < 256 && 0 <= t.minute < 256 && 0 <= t.second < 256
    && t.microsecond % 10000 == 0 && 0 <= t.microsecond / 10000 < 256
  }

  /**
   The inverse of ToTimestamp: re-encodes a timestamp as a BACnet date and time,
   given the day of the week the decoder dropped. None when a field does not fit
   (a year before 1900 or after 2155, or a fraction finer than a hundredth, for two).
   */
  function FromTimestamp(t: Timestamp, dayOfWeek: Octet): (stamp: Option<DateTime>)
    ensures stamp.Some? <==> FitsOctets(t)
    ensures stamp.Some? ==> stamp.value.date.dayOfWeek == dayOfWeek
  {
    if FitsOctets(t)
    then Some(DateTime(Date(t.year - 1900, t.month, t.day, dayOfWeek), Time(t.hour, t.minute, t.second, t.microsecond / 10000)))
    else None
  }

  /** Decoding then re-encoding with the dropped day of the week gives the stamp back. */
  lemma TimestampRoundTrip(stamp: DateTime)
    ensures FromTimestamp(ToTimestamp(stamp), stamp.date.dayOfWeek) == Some(stamp)
  {
  }

  /** Every timestamp that fits the BACnet fields decodes from its own encoding. */
  lemma TimestampRoundTripBack(t: Timestamp, dayOfWeek: Octet)
    requires FromTimestamp(t, dayOfWeek).Some?
    ensures ToTimestamp(FromTimestamp(t, dayOfWeek).value) == t
  {
  }

  /** Two stamps decode alike exactly when they differ at most in the day of the week. */
  lemma ToTimestampForgetsOnlyDayOfWeek(a: DateTime, b: DateTime)
    ensures ToTimestamp(a) == ToTimestamp(b) <==> a.time == b.time && a.date.(dayOfWeek := 0) == b.date.(dayOfWeek := 0)
  {
  }

  /** The loop over the buffer: one index, datum and status entry appended per record. */
  function Collect(buffer: seq<LogRecord>): (c: Columns)
    ensures |c.index| == |buffer| && |c.logdatum| == |buffer| && |c.status| == |buffer|
    ensures forall i :: 0 <= i < |buffer| ==>
      && c.index[i] == ToTimestamp(buffer[i].timestamp)
      && c.logdatum[i] == buffer[i].logDatum
      && c.status[i] == buffer[i].statusFlags
  {
    if |buffer| == 0 then Columns([], [], [])
    else
      var prefix := Collect(buffer[..|buffer| - 1]);
      var last := buffer[|buffer| - 1];
      Columns(prefix.index + [ToTimestamp(last.timestamp)], prefix.logdatum + [last.logDatum], prefix.status + [last.statusFlags])
  }

  /** Position p holds the first empty datum of the column. */
  predicate FirstEmpty(data: seq<Datum>, p: nat) {
    && p < |data|
    && |data[p]| == 0
    && forall j :: 0 <= j < p ==> |data[j]| > 0
  }

  /**
   The two projections of the datum column: the first key and the first payload
   of each datum, in column order. Indexing the keys of an empty datum raises, at
   the first empty datum of the column.
   */
  function Project(data: seq<Datum>): (r: Result<(seq<Tag>, seq<Payload>), DecodeError>)
    ensures r.Success? <==> forall i :: 0 <= i < |data| ==> |data[i]| > 0
    ensures r.Success? ==>
      && |r.value.0| == |data| && |r.value.1| == |data|
      && forall i :: 0 <= i < |data| ==> r.value.0[i] == data[i][0].0 && r.value.1[i] == data[i][0].1
    ensures r.Failure? ==> FirstEmpty(data, r.error.position)
  {
    if |data| == 0 then Success(([], []))
    else if |data[0]| == 0 then Failure(EmptyDatum(0))
    else
      match Project(data[1..])
      case Failure(e) => Failure(EmptyDatum(e.position + 1))
      case Success(rest) => Success(([data[0][0].0] + rest.0, [data[0][0].1] + rest.1))
  }

  /** Every record's datum has an entry to project. */
  predicate AllHaveEntries(buffer: seq<LogRecord>) {
    forall i :: 0 <= i < |buffer| ==> |buffer[i].logDatum| > 0
  }

  /** Position p holds the first record whose datum is empty. */
  predicate FirstEmptyRecord(buffer: seq<LogRecord>, p: nat) {
    && p < |buffer|
    && |buffer[p].logDatum| == 0
    && forall j :: 0 <= j < p ==> |buffer[j].logDatum| > 0
  }

  /**
   Row i of the frame comes from `record`: its timestamp with the year offset
   resolved, its datum and status flags unchanged, and the tag and payload of
   the datum's first entry.
   */
  predicate RowFrom(f: Frame, i: nat, record: LogRecord)
    requires Aligned(f) && i < |f.index|
  {
    && |record.logDatum| > 0
    && f.index[i] == ToTimestamp(record.timestamp)
    && f.logdatum[i] == record.logDatum
    && f.status[i] == record.statusFlags
    && f.choice[i] == record.logDatum[0].0
    && f.value[i] == record.logDatum[0].1
  }

  /** The frame has one row per record of the buffer, each from the record at its position. */
  predicate Describes(f: Frame, buffer: seq<LogRecord>) {
    && Aligned(f)
    && |f.index| == |buffer|
    && forall i :: 0 <= i < |buffer| ==> RowFrom(f, i, buffer[i])
  }

  /**
   Decodes a log buffer into the trend frame. Every column has one entry per
   record, in buffer order: nothing is sorted or merged. The decode fails, and
   yields nothing, exactly when some record's datum is empty, naming the first.
   */
  function Decode(buffer: seq<LogRecord>): (r: Result<Frame, DecodeError>)
    ensures r.Success? <==> AllHaveEntries(buffer)
    ensures r.Success? ==> Describes(r.value, buffer)
    ensures r.Failure? ==> FirstEmptyRecord(buffer, r.error.position)
  {
    var columns := Collect(buffer);
    var projected :- Project(columns.logdatum);
    Success(Frame(columns.index, columns.logdatum, columns.status, projected.0, projected.1))
  }

  /** An empty buffer decodes to an empty frame, not to an error. */
  lemma DecodeEmpty()
    ensures Decode([]) == Success(EmptyFrame)
  {
  }

  /** The decode of a single record, the reference each row of the frame must match. */
  function DecodeRecord(record: LogRecord): Option<Row> {
    if |record.logDatum| == 0 then None
    else Some(Row(ToTimestamp(record.timestamp), record.logDatum, record.statusFlags,
                  record.logDatum[0].0, record.logDatum[0].1))
  }

  /** The frame is the per-record decode, row by row, and fails exactly when some record does. */
  lemma DecodeIsRowwise(buffer: seq<LogRecord>)
    ensures Decode(buffer).Success? <==> forall i :: 0 <= i < |buffer| ==> DecodeRecord(buffer[i]).Some?
    ensures Decode(buffer).Success? ==>
      forall i :: 0 <= i < |buffer| ==> RowAt(Decode(buffer).value, i) == DecodeRecord(buffer[i]).value
  {
  }

  /** The records of `a + b`, position by position. */
  lemma AppendIndexing(a: seq<LogRecord>, b: seq<LogRecord>)
    ensures forall i :: 0 <= i < |a| ==> (a + b)[i] == a[i]
    ensures forall i :: 0 <= i < |b| ==> (a + b)[|a| + i] == b[i]
  {
  }

  /** A buffer decodes exactly when both of its halves do. */
  lemma {:induction false} DecodeAppendSucceeds(a: seq<LogRecord>, b: seq<LogRecord>)
    ensures Decode(a + b).Success? <==> Decode(a).Success? && Decode(b).Success?
  {
    AppendIndexing(a, b);
    var ra, rb := Decode(a), Decode(b);
    if ra.Failure? {
      assert |(a + b)[ra.error.position].logDatum| == 0;
    } else if rb.Failure? {
      assert |(a + b)[|a| + rb.error.position].logDatum| == 0;
    } else {
      forall i | 0 <= i < |a + b|
        ensures |(a + b)[i].logDatum| > 0
      {
        if i >= |a| {
          assert (a + b)[i] == b[i - |a|];
        }
      }
    }
  }

  /** A buffer determines its frame: two frames that both describe it are equal. */
  lemma DescribesUnique(f: Frame, g: Frame, buffer: seq<LogRecord>)
    requires Describes(f, buffer) && Describes(g, buffer)
    ensures f == g
  {
    forall i | 0 <= i < |buffer|
      ensures f.index[i] == g.index[i] && f.logdatum[i] == g.logdatum[i] && f.status[i] == g.status[i]
      ensures f.choice[i] == g.choice[i] && f.value[i] == g.value[i]
    {
      assert RowFrom(f, i, buffer[i]) && RowFrom(g, i, buffer[i]);
    }
  }

  /** Frames of two buffers laid end to end describe the concatenated buffer. */
  lemma DescribesConcat(fa: Frame, fb: Frame, a: seq<LogRecord>, b: seq<LogRecord>)
    requires Describes(fa, a) && Describes(fb, b)
    ensures Describes(Concat(fa, fb), a + b)
  {
    var g, ab := Concat(fa, fb), a + b;
    forall i | 0 <= i < |ab|
      ensures RowFrom(g, i, ab[i])
    {
      if i < |a| {
        assert ab[i] == a[i] && RowFrom(fa, i, a[i]);
      } else {
        assert ab[i] == b[i - |a|] && RowFrom(fb, i - |a|, b[i - |a|]);
      }
    }
  }

  /**
   Decoding is compatible with splitting the buffer: the frame of `a + b` is the
   frame of `a` followed by the frame of `b`.
   */
  lemma {:induction false} DecodeAppend(a: seq<LogRecord>, b: seq<LogRecord>)
    requires Decode(a + b).Success?
    ensures Decode(a).Success? && Decode(b).Success?
    ensures Decode(a + b).value == Concat(Decode(a).value, Decode(b).value)
  {
    DecodeAppendSucceeds(a, b);
    var f, fa, fb := Decode(a + b).value, Decode(a).value, Decode(b).value;
    DescribesConcat(fa, fb, a, b);
    DescribesUnique(f, Concat(fa, fb), a + b);
  }

  /** The first empty datum of `a` is also the first of `a + b`. */
  lemma FirstEmptyPrefix(a: seq<LogRecord>, b: seq<LogRecord>, p: nat)
    requires FirstEmptyRecord(a, p)
    ensures FirstEmptyRecord(a + b, p)
  {
    AppendIndexing(a, b);
  }

  /** After a clean `a`, the first empty datum of `b` is the first of `a + b`, shifted by `|a|`. */
  lemma FirstEmptySuffix(a: seq<LogRecord>, b: seq<LogRecord>, q: nat)
    requires AllHaveEntries(a) && FirstEmptyRecord(b, q)
    ensures FirstEmptyRecord(a + b, |a| + q)
  {
    var ab := a + b;
    AppendIndexing(a, b);
    forall j | 0 <= j < |a| + q
      ensures |ab[j].logDatum| > 0
    {
      if j >= |a| {
        assert ab[j] == b[j - |a|];
      }
    }
  }

  /** A failure in `a` is reported at the same position for `a + b`. */
  lemma {:induction false} DecodeAppendFailsLeft(a: seq<LogRecord>, b: seq<LogRecord>)
    requires Decode(a).Failure?
    ensures Decode(a + b) == Decode(a)
  {
    var p := Decode(a).error.position;
    FirstEmptyPrefix(a, b, p);
    FirstEmptyUnique(a + b, Decode(a + b).error.position, p);
  }

  /** A failure in `b` after a clean `a` is reported shifted by the length of `a`. */
  lemma {:induction false} DecodeAppendFailsRight(a: seq<LogRecord>, b: seq<LogRecord>)
    requires Decode(a).Success? && Decode(b).Failure?
    ensures Decode(a + b) == Failure(EmptyDatum(|a| + Decode(b).error.position))
  {
    var q := Decode(b).error.position;
    FirstEmptySuffix(a, b, q);
    FirstEmptyUnique(a + b, Decode(a + b).error.position, |a| + q);
  }

  /** Two positions that are each the first empty datum of a buffer are the same. */
  lemma FirstEmptyUnique(buffer: seq<LogRecord>, p: nat, q: nat)
    requires FirstEmptyRecord(buffer, p) && FirstEmptyRecord(buffer, q)
    ensures p == q
  {
  }

  /**
   A record stamped raw year 124, March 15 (a Friday), 14:30:05 and 50 hundredths,
   carrying the real 21.5 with no status flags raised, decodes to one row at
   2024-03-15 14:30:05 with value 21.5 under the tag of a real value.
   */
  lemma DecodeOneReading()
    ensures
      var record := LogRecord(DateTime(Date(124, 3, 15, 5), Time(14, 30, 5, 50)), [(RealValue, Real(21.5))], Some(AllClear));
      Decode([record]) == Success(Frame(
        [Timestamp(2024, 3, 15, 14, 30, 5, 500000)], [[(RealValue, Real(21.5))]], [Some(AllClear)], [RealValue], [Real(21.5)]))
  {
    var record := LogRecord(DateTime(Date(124, 3, 15, 5), Time(14, 30, 5, 50)), [(RealValue, Real(21.5))], Some(AllClear));
    var f := Frame([Timestamp(2024, 3, 15, 14, 30, 5, 500000)], [[(RealValue, Real(21.5))]], [Some(AllClear)], [RealValue], [Real(21.5)]);
    assert RowFrom(f, 0, record);
    DescribesUnique(Decode([record]).value, f, [record]);
  }

  /** Raw year 99 is 1999. */
  lemma YearNinetyNine(stamp: DateTime)
    requires stamp.date.year == 99
    ensures ToTimestamp(stamp).year == 1999
  {
  }

  /**
   A datum with more than one entry is not rejected: its first entry supplies
   both the choice and the value, and the rest are kept only in the datum column.
   */
  lemma DecodeTakesFirstEntry(stamp: DateTime, first: (Tag, Payload), rest: Datum)
    requires |rest| > 0
    ensures
      var r := Decode([LogRecord(stamp, [first] + rest, None)]);
      r.Success? && r.value.choice == [first.0] && r.value.value == [first.1]
      && r.value.logdatum == [[first] + rest]
  {
  }

  /** A record whose datum is empty makes the decode fail at its position. */
  lemma DecodeRejectsEmptyDatum(ok: LogRecord, bad: LogRecord)
    requires |ok.logDatum| > 0 && bad.logDatum == []
    ensures Decode([ok, bad, ok]) == Failure(EmptyDatum(1))
  {
    FirstEmptyUnique([ok, bad, ok], Decode([ok, bad, ok]).error.position, 1);
  }

  /** The `history` of a decoded frame: a copy of its `value` column under the same index. */
  function History(f: Frame): (h: Series)
    requires Aligned(f)
    ensures |h.values| == |f.index| && |h.index| == |h.values|
    ensures forall i :: 0 <= i < |f.index| ==> h.index[i] == f.index[i] && h.values[i] == RowAt(f, i).value
  {
    Series(f.index, f.value)
  }
}

=== FILE: trend_logs.dfy ===
/**
 The BAC0 TrendLog object: its property container, the one metadata read that
 fills it, and the log-buffer read that replaces its decoded frame and history.
 The two network reads are parameters: each operation receives what the device
 answered (or the failure) instead of asking for it.
 */
module TrendLogs {
  import opened Wrappers
  import opened LogRecords
  import opened TrendDecode

  /** The controller a trend log lives on, known by its network address. */
  datatype Device = Device(address: string)

  /** A BACnetDeviceObjectPropertyReference: the property the trend log records. */
  datatype PropertyReference = PropertyReference(objectType: string, instance: nat, property: string, device: Option<nat>)

  /**
   The answer to the ReadPropertyMultiple of objectName, description, recordCount,
   bufferSize, totalRecordCount, logDeviceObjectProperty and statusFlags, in that order.
   */
  datatype Metadata = Metadata(
    objectName: string,
    description: string,
    recordCount: nat,
    bufferSize: nat,
    totalRecordCount: nat,
    logDeviceObjectProperty: PropertyReference,
    statusFlags: StatusFlags)

  /**
   The property container. `statusFlags` is the flag set read from the device;
   `flagSummary` is the container's own four-entry status-flag dictionary.
   */
  datatype Properties = Properties(
    device: Option<Device>,
    oid: Option<nat>,
    objectName: Option<string>,
    description: Option<string>,
    logDeviceObjectProperty: Option<PropertyReference>,
    bufferSize: nat,
    recordCount: nat,
    totalRecordCount: nat,
    statusFlags: Option<StatusFlags>,
    flagSummary: StatusFlags,
    df: Option<Frame>)

  /** A trend log: its properties and the value series of its last decoded buffer. */
  datatype TrendLog = TrendLog(properties: Properties, history: Option<Series>)

  /** The two exceptions a trend log raises, each replacing whatever failed beneath it. */
  datatype TrendLogError =
    | InformationUnreadable   // 'Problem reading trendLog informations'
    | BufferUnreadable        // 'Problem reading TrendLog'

  /** The state after an operation that may raise, and the error it raised if any. */
  datatype Update<E> = Update(log: TrendLog, error: Option<E>)

  /**
   A fresh property container. The description is first set to the empty string
   and then overwritten with None, so it ends up None.
   */
  function FreshProperties(): (p: Properties)
    ensures p.device == None && p.oid == None && p.objectName == None
    ensures p.description == None
    ensures p.logDeviceObjectProperty == None && p.statusFlags == None && p.df == None
    ensures p.bufferSize == 0 && p.recordCount == 0 && p.totalRecordCount == 0
    ensures !p.flagSummary.inAlarm && !p.flagSummary.fault
    ensures !p.flagSummary.overridden && !p.flagSummary.outOfService
  {
    var initial := Properties(None, None, None, Some(""), None, 0, 0, 0, None, AllClear, None);
    initial.(description := None)
  }

  /**
   Creates a trend log for object `oid` on `device`, filling its properties from
   the metadata read. A missing device or a failed read raises one generic error;
   on success the seven read fields are set and nothing has been decoded yet.
   */
  function Open(oid: nat, device: Option<Device>, response: Result<Metadata, string>): (r: Result<TrendLog, TrendLogError>)
    ensures r.Success? <==> device.Some? && response.Success?
    ensures r.Failure? ==> r.error == InformationUnreadable
    ensures r.Success? ==>
      var p, m := r.value.properties, response.value;
      && p.device == device && p.oid == Some(oid)
      && p.objectName == Some(m.objectName)
      && p.description == Some(m.description)
      && p.recordCount == m.recordCount
      && p.bufferSize == m.bufferSize
      && p.totalRecordCount == m.totalRecordCount
      && p.logDeviceObjectProperty == Some(m.logDeviceObjectProperty)
      && p.statusFlags == Some(m.statusFlags)
      && r.value.history == None
  {
    var p := FreshProperties().(device := device, oid := Some(oid));
    if device.None? then Failure(InformationUnreadable)
    else match response
      case Failure(_) => Failure(InformationUnreadable)
      case Success(m) =>
        Success(TrendLog(
          p.(objectName := Some(m.objectName), description := Some(m.description),
             recordCount := m.recordCount, bufferSize := m.bufferSize,
             totalRecordCount := m.totalRecordCount,
             logDeviceObjectProperty := Some(m.logDeviceObjectProperty),
             statusFlags := Some(m.statusFlags)),
          None))
  }

  /**
   Open starts from a fresh container: every field that neither the arguments nor
   the metadata read set (the status-flag dictionary and the frame) keeps its
   default, so no frame exists before the first decode.
   */
  lemma OpenStartsFresh(oid: nat, device: Option<Device>, response: Result<Metadata, string>)
    requires Open(oid, device, response).Success?
    ensures
      var p, initial := Open(oid, device, response).value.properties, FreshProperties();
      p.flagSummary == initial.flagSummary && p.df == initial.df
  {
  }

  /**
   Decodes `buffer` into the trend log. On success the frame replaces the stored
   one and `history` becomes its value column under its index; every other
   property is kept. On failure the trend log is left exactly as it was.
   */
  function CreateDataframe(log: TrendLog, buffer: seq<LogRecord>): (u: Update<DecodeError>)
    ensures u.error.Some? <==> !AllHaveEntries(buffer)
    ensures u.error.Some? ==> u.log == log && FirstEmptyRecord(buffer, u.error.value.position)
    ensures u.error.None? ==>
      && u.log.properties.df.Some?
      && Describes(u.log.properties.df.value, buffer)
      && u.log.properties.(df := log.properties.df) == log.properties
      && u.log.history.Some?
      && u.log.history.value.index == u.log.properties.df.value.index
      && u.log.history.value.values == u.log.properties.df.value.value
  {
    match Decode(buffer)
    case Failure(e) => Update(log, Some(e))
    case Success(f) => Update(TrendLog(log.properties.(df := Some(f)), Some(History(f))), None)
  }

  /**
   Decoding replaces the frame and the history wholesale: the outcome does not
   depend on what an earlier decode left behind.
   */
  lemma CreateDataframeReplaces(log1: TrendLog, log2: TrendLog, buffer: seq<LogRecord>)
    requires log1.properties.(df := None) == log2.properties.(df := None)
    requires AllHaveEntries(buffer)
    ensures CreateDataframe(log1, buffer).log == CreateDataframe(log2, buffer).log
  {
  }

  /** Decoding the same buffer a second time changes nothing more. */
  lemma CreateDataframeIdempotent(log: TrendLog, buffer: seq<LogRecord>)
    ensures
      var once := CreateDataframe(log, buffer);
      CreateDataframe(once.log, buffer) == once
  {
  }

  /** The history holds one value per record, the payload of the record's first datum entry. */
  lemma HistoryFollowsBuffer(log: TrendLog, buffer: seq<LogRecord>)
    requires AllHaveEntries(buffer)
    ensures
      var h := CreateDataframe(log, buffer).log.history.value;
      && |h.values| == |buffer| && |h.index| == |buffer|
      && forall i :: 0 <= i < |buffer| ==>
        h.values[i] == buffer[i].logDatum[0].1 && h.index[i] == ToTimestamp(buffer[i].timestamp)
  {
  }

  /**
   Reads the log buffer (`fetched` is what the ReadRange returned) and decodes it.
   A missing device, a failed read and a failed decode all raise the same generic
   error and leave the trend log untouched.
   */
  function ReadLogBuffer(log: TrendLog, fetched: Result<seq<LogRecord>, string>): (u: Update<TrendLogError>)
    ensures u.error.None? <==> log.properties.device.Some? && fetched.Success? && AllHaveEntries(fetched.value)
    ensures u.error.Some? ==> u.log == log && u.error.value == BufferUnreadable
    ensures u.error.None? ==> u.log == CreateDataframe(log, fetched.value).log
  {
    if log.properties.device.None? || fetched.Failure? then Update(log, Some(BufferUnreadable))
    else
      var decoded := CreateDataframe(log, fetched.value);
      if decoded.error.Some? then Update(log, Some(BufferUnreadable))
      else Update(decoded.log, None)
  }
}

=== FILE: wrappers.dfy ===
/** Failure-carrying values shared by the trend-log model. */
module Wrappers {

  /** A value that may be absent; stands for Python's `None`. */
  datatype Option<+T> = None | Some(value: T)

  /** The outcome of an operation that raises on bad input. */
  datatype Result<+R, +E> = Success(value: R) | Failure(error: E) {

    predicate IsFailure() {
      Failure?
    }

    function PropagateFailure<U>(): Result<U, E>
      requires Failure?
    {
      Failure(error)
    }

    function Extract(): R
      requires Success?
    {
      value
    }
  }
}
